=== FILE: README.md ===
# testnod-uploader in Dafny

A model of the decision logic of `testnod-uploader`, a Go command-line tool
that checks that a file is a JUnit XML report and uploads it to the TestNod
service in two phases: it registers a test run (a POST that answers with a
presigned upload URL), then PUTs the raw file to that URL.

The network, Go's JSON codec, the `encoding/xml` tokenizer and the file
system are replaced by inputs:

- one HTTP attempt is an `Http.Attempt`: the request could not be built, the
  transport failed, or the server answered with a status and a body;
- the registration client's network is a total function `nat -> Attempt`
  giving the outcome of attempt `i`, so the model never runs out of answers;
- `json.Marshal` and the response decoders are function parameters returning
  `Result`s; a decoder that rejects an empty body stands for Go's `EOF`;
- the XML decoder's output is a `Validation.Stream`: the tokens it yields,
  then either end of file or a tokenizer error;
- a file is whether opening and stat-ing it fail, and its bytes.

Modules, one per source file plus shared pieces:

- `Errors` (errors.dfy): `Option`, `Result`, `Outcome` and one `Error`
  constructor per error format of the program, with the text it prints.
- `Http` (http.dfy): status codes 200 and 201, headers, attempt outcomes.
- `Testnod` (testnod.dfy): `CreateTestRun`, the registration client with
  three attempts, last-error-only reporting and decode-after-loop.
- `Validation` (validation.dfy): `ValidateJUnitXMLFile`, the fold over the
  token stream looking for a `testsuite` start element.
- `Upload` (upload.dfy): `UploadJUnitXmlFile`, the single-shot two-phase
  pipeline and its `(statusCode, testRunURL, error)` classification.
- `Strings` (strings.dfy): Go's `strings.Join`, and a `Split` that undoes it.
- `Cli` (cli.dfy): `parseFlags`, the `-tag` flag's `Set` and `String`,
  the registration request built from the configuration, and `main`'s exit
  code.

Three facts about the source shape the model:

- In `main.go` the upload path prints "is a valid JUnit XML file" (line
  101) without calling the validator. `Cli.Run` states this: without
  `-validate`, no validation happens.
- `internal/upload/upload.go:41-111` makes one attempt per phase, with no
  retry, and the model follows it.
- `main.go:122` calls `upload.UploadJUnitXmlFile` with two arguments, but
  `upload.go:41` declares four arguments and three results. `Cli.Run`
  therefore treats the upload call as an input `upload(filePath,
  presignedUrl)`. The `Upload` module models `upload.go` as written.

## Model

| member | source | states |
|---|---|---|
| Testnod.CreateTestRun | internal/testnod/testnod.go:40-93 | A marshal failure returns "failed to marshal request body" with zero attempts and no POST. Otherwise there are 1 to 3 attempts and every attempt before the last one failed, so no attempt follows a success. Every POST carries the same marshalled bytes, URL and headers. The result is a success exactly when the last attempt got a 201 and its body decoded, and then it is the decoded record. |
| Testnod.AttemptsFrom | internal/testnod/testnod.go:48-79 | The retry loop stops after the first successful attempt or after the third attempt, whichever comes first. Every attempt before the stopping one failed. |
| Testnod.PostsFor | internal/testnod/testnod.go:50-61 | At most one POST per attempt reaches the transport, and all of them are the same request. When no attempt fails to build its request, there is exactly one POST per attempt. |
| Testnod.AttemptsEndAtFirstSuccess | internal/testnod/testnod.go:71-75 | The attempt count is the position of the first 201 answer plus one. |
| Testnod.AllAttemptsFail | internal/testnod/testnod.go:74-83 | When every attempt fails, exactly 3 are made and only the third attempt's error is returned. |
| Testnod.DecodeFailureNotRetried | internal/testnod/testnod.go:85-90 | A 201 whose body does not decode fails with "failed to decode response body". No further attempt is made. |
| Testnod.FirstAnswerDecides | internal/testnod/testnod.go:66-69 | A first answer ends the loop at once if and only if its status is 201. Any other status fails with "received non-OK response: " followed by the status line. |
| Testnod.AttemptError | internal/testnod/testnod.go:50-69 | A failed attempt reports "failed to create request" exactly when the request could not be built, and "failed to perform request" exactly when the transport failed. It reports "received non-OK response: " followed by the status line exactly when the server answered with a status other than 201. |
| Testnod.BadUrlFailsEveryAttempt | internal/testnod/testnod_test.go:167-182 | A URL that `http.NewRequest` rejects fails all 3 attempts and sends no POST. The result is the request-construction error. |
| Testnod.SendErrorsAreRetried | internal/testnod/testnod.go:50-64 | A request-construction or transport error on any attempt but the third is a failed attempt. When no success came before it, another attempt follows. |
| Testnod.RetryThenSucceed | internal/testnod/testnod_test.go:234-284 | Two 500 answers and then a 201 give exactly 3 attempts. The result is the decoded record field for field: id, project, test_run_url, presigned_url. |
| Testnod.EmptyCreatedBodyFails | internal/testnod/testnod_test.go:314-336 | A 201 with an empty body gives one attempt and "failed to decode response body". |
| Errors.DecodeFailureIsDistinguishable | internal/testnod/testnod.go:52-89 | A decode-failure message never equals a rejection, transport or request-construction message. |
| Validation.Scan | internal/validation/validation.go:20-37 | Folding the loop over the tokens ends with the flag set exactly when it was set on entry or some start element has local name `testsuite`. |
| Validation.ValidateJUnitXmlFile | internal/validation/validation.go:11-44 | If the open fails, the result is "failed to open file" and no token is read. A tokenizer error gives "error parsing XML". On clean EOF the file passes exactly when some start element is named `testsuite`, and otherwise fails as not JUnit. When the open succeeds, each token plus the final EOF or error is read once. |
| Validation.ScanSplits | internal/validation/validation.go:22-37 | Scanning a stream equals scanning its tail from the flag its head left. The loop carries nothing else from one token to the next. |
| Validation.SeenStaysSeen | internal/validation/validation.go:31-36 | Once a `testsuite` start has been seen, no later token clears the flag. |
| Validation.ErrorAfterSuiteIsError | internal/validation/validation.go:23-28 | A tokenizer error gives "error parsing XML" even after a `testsuite` start. |
| Validation.NamespaceIgnored | internal/validation/validation.go:33 | Moving every element into another namespace leaves the verdict unchanged, because only the local name is compared. |
| Validation.NestedSuitesValid | internal/validation/validation_test.go:63-72 | Nested `testsuite` elements under `testsuites` are valid. |
| Validation.RootWithoutSuiteRejected | internal/validation/validation_test.go:35-42 | A document with no `testsuite` element fails with "doesn't seem to be a valid JUnit XML file". |
| Upload.UploadJUnitXmlFile | internal/upload/upload.go:41-111 | Each phase is attempted at most once, and exactly one POST goes out once the body is marshalled and the request built. The file is opened only after a decoded 201. A PUT goes to the presigned URL with the file's bytes, and its ContentLength field is their count. The call succeeds exactly when every step succeeds, and then it returns the registration status 201 and the run URL. Every failure returns an empty run URL. A non-zero status on failure only comes with a server rejection. |
| Upload.StepFailures | internal/upload/upload.go:42-60 | Each of these failures returns status 0, an empty run URL and its own error: a marshal failure ("failed to marshal request body", no POST), a POST construction failure ("failed to create request", no POST) and a POST transport failure ("failed to perform request", one POST, file not opened). |
| Upload.PutPreparationFailures | internal/upload/upload.go:84-95 | After a decoded 201 and a successful open, a PUT construction failure returns (0, "", "failed to create upload request"). A stat failure returns (0, "", "failed to stat file"). Neither sends a PUT. |
| Upload.RejectedRegistration | internal/upload/upload.go:63-70 | A non-201 registration with a decodable failure envelope returns that status and "received non-OK response: " followed by the envelope's message. The file is not opened. |
| Upload.UndecodableAnswer | internal/upload/upload.go:63-76 | An undecodable failure envelope or an undecodable 201 body gives status 0 and "failed to decode response body". |
| Upload.OpenFailureAfterRegistration | internal/upload/upload.go:78-81 | An open failure after a decoded 201 gives status 0, "failed to open file" and no PUT. |
| Upload.UploadFailures | internal/upload/upload.go:97-108 | A non-200 upload answer returns the upload status and "failed to upload file". A transport failure returns status 0. The PUT's content length is the file size. |
| Upload.UploadPhase | internal/upload/upload.go:78-110 | The second phase opens the file and makes at most one PUT. The PUT happens exactly when open, request construction and stat succeed, and goes to the presigned URL with the file's bytes and their count as ContentLength. Each failing step returns its own error: "failed to open file", "failed to create upload request", "failed to stat file" and "failed to upload file: <cause>" with status 0, and a non-200 answer returns its status with "failed to upload file". The phase passes exactly when the answer is 200, and then returns the registration status and the run URL. Otherwise the run URL is empty. |
| Upload.NonEmptyFileSentWithLength | internal/upload/upload.go:89-98 | A non-empty file goes out with a Content-Length header equal to its size. |
| Upload.EmptyFileSentChunked | internal/upload/upload.go:89-98 | As written, an empty file sets the request's ContentLength field to 0. Go's client reads that as an unknown length and sends the PUT chunked, with no Content-Length header. |
| Upload.CorrectedFramingSendsLength | internal/upload/upload.go:89-98 | When an empty file is sent as `http.NoBody`, every PUT carries a Content-Length header equal to the file size, 0 included. |
| Cli.ParseFlags | cmd/testnod-uploader/main.go:48-85 | The checks run in a fixed order. No positional argument gives "no file specified". The first positional argument is the file path, and a path that stat reports missing gives "file not found: <path>". A missing token is an error exactly when validation mode is off. Parsing passes exactly when none of these applies, and then an empty upload URL becomes the default while a non-empty one is kept. The tags are the `-tag` values in order. |
| Cli.ExitCode | cmd/testnod-uploader/main.go:146-152 | The exit code is 0 exactly when ignore-failures is set, and 1 exactly when it is not. |
| Cli.SetTag | cmd/testnod-uploader/main.go:141-144 | `Set` never fails. It appends exactly one tag with the given value at the end and keeps the earlier tags and their order. |
| Cli.SetAll | cmd/testnod-uploader/main.go:61-64 | Repeated `-tag` flags give one tag per value, in command-line order, after any earlier tags. |
| Cli.TagsString | cmd/testnod-uploader/main.go:133-139 | No tags give the empty string, and one tag gives its value alone. The general case is stated by TagsStringRoundTrip and TagsStringAfterSet. |
| Cli.TagsStringRoundTrip | cmd/testnod-uploader/main.go:133-139 | `String` joins the tag values in order with ",": splitting it on "," gives the values back when there is a tag and no value holds a comma. |
| Cli.TagsStringAfterSet | cmd/testnod-uploader/main.go:133-144 | After `Set(v)`, `String` is the old string, then ",", then `v`, or just `v` when there were no tags. |
| Cli.TagsStringExample | cmd/testnod-uploader/main_test.go:140-147 | Tags "feature" and "backend" print as "feature,backend". |
| Cli.FileNotFoundExample | cmd/testnod-uploader/main_test.go:39-44 | A missing `test.xml` is reported as "file not found: test.xml". |
| Cli.BuildRequest | cmd/testnod-uploader/main.go:103-113 | The request's tags are the configuration's tags, and its branch, commit SHA, run URL and build id are the configuration's, unchanged. |
| Cli.RequestCarriesFlags | cmd/testnod-uploader/main.go:103-113 | The registration request copies the tags in order and the branch, commit SHA, run URL and build id unchanged. |
| Cli.Run | cmd/testnod-uploader/main.go:33-46 | After flag parsing, the exit code is 0 or 1. A parse error ends the run before validation or any network call. In validation mode the run validates the file and never registers or uploads. In upload mode it registers the request built from the configuration, at the configured URL and with the token, and never validates. A successful registration is always followed by the upload call, and the upload is called only then, with the file path and the registration's presigned URL. |
| Cli.ExitCodeIff | cmd/testnod-uploader/main.go:146-152 | The exit code is 0 exactly when the run succeeded or `-ignore-failures` is set, and 1 otherwise. |

## Left out

- HTTP itself: header transmission, the 30-second client timeout and
  connection handling. An attempt is an abstract outcome, and the model
  records the headers each request would carry.
- JSON encoding and decoding: `json.Marshal` and the decoders are
  parameters. Go's escaping and the wire format are not reproduced.
- The XML tokenizer: the model consumes its token stream.
- The file system: opening, stat and permissions are inputs. For the
  existence check, a path is missing only when stat fails with a not-exist
  error, which matches `os.IsNotExist`.
- The `flag` package's argv parsing and the help text: the model starts from
  the parsed values and the positional arguments. A flag `flag.Parse`
  rejects ends the process with code 2, and `-h` or `-help` ends it with
  code 0, before `parseFlags` continues, so
  `Cli.Run` applies only after parsing succeeded.
- Printing and `os.Exit`: the exit code is a returned value.
- The retry delay (`retry.Delay(1000)`) and the jitter and backoff of the
  retry library: the model has no time. Only the attempt count and the
  last-error behaviour are modelled.
- The `OnRetry` log line.
- The two-argument, retrying upload that `internal/upload/upload_test.go`
  and `main.go` call. It is not part of this model, because `upload.go`
  declares a different, single-shot function.
- Testnod.CreateTestRun: the marshal and decode steps are abstract
  functions, so the exact JSON body is not stated. For example, with no
  `-tag` flag the tag list stays a nil Go slice, which `encoding/json`
  writes as `"tags":null`. A `seq<Tag>` cannot tell a nil slice from an
  empty one.
- Go's framing rule for request bodies is modelled only for the upload PUT
  (`Upload.WireFraming`), from net/http's documented treatment of a zero
  ContentLength with a non-nil body. The registration POST's framing is not
  modelled.

## Findings

| source | as written | input that shows it | evidently intended | confidence | as-written member | corrected member |
|---|---|---|---|---|---|---|
| internal/upload/upload.go:89-98 | `uploadReq.ContentLength = fileInfo.Size()` with the open file as the body. For an empty file the field is 0, and Go's client treats 0 with a non-nil body as an unknown length, so the PUT goes out with chunked transfer encoding. | an empty (0-byte) report file, after a decoded 201 registration | The comment at lines 89-91 says the Content-Length header must be set because the upload endpoint rejects chunked requests. An empty file should go as `http.NoBody`, so that `Content-Length: 0` is sent. | medium, not executed | Upload.EmptyFileSentChunked | Upload.CorrectedFramingSendsLength |

=== FILE: cli.dfy ===
/** The command line (cmd/testnod-uploader/main.go): checking the parsed
    flags, the repeatable `-tag` flag, the request built from the
    configuration, and the exit code of a run. */
module Cli {
  import opened Errors
  import opened Http
  import Strings
  import Testnod
  import Validation

  const DefaultUploadUrl: string := "https://testnod.com/integrations/test_runs/upload"

  datatype Config = Config(
    token: string, validateFile: bool,
    branch: string, commitSha: string, runUrl: string, buildId: string,
    ignoreFailures: bool, uploadUrl: string,
    tags: seq<Testnod.Tag>, filePath: string)

  /** The values `flag.Parse` leaves behind; `tagValues` lists the `-tag`
      arguments in command-line order. */
  datatype Flags = Flags(
    token: string, validate: bool,
    branch: string, commitSha: string, runUrl: string, buildId: string,
    ignoreFailures: bool, uploadUrl: string,
    tagValues: seq<string>)

  /** `parseFlags` returns its configuration even alongside an error. */
  datatype Parsed = Parsed(config: Config, err: Outcome)

  /** `uploadTagsFlag.Set`: the new tag list and the error (always nil). */
  function SetTag(tags: seq<Testnod.Tag>, value: string): (r: (seq<Testnod.Tag>, Outcome))
    ensures r.1 == Pass
    ensures |r.0| == |tags| + 1 && r.0[..|tags|] == tags && r.0[|tags|].value == value
  {
    (tags + [Testnod.Tag(value)], Pass)
  }

  /** The tag list after `flag.Parse` has called `Set` once per value. */
  function SetAll(tags: seq<Testnod.Tag>, values: seq<string>): (r: seq<Testnod.Tag>)
    ensures |r| == |tags| + |values|
    ensures r[..|tags|] == tags
    ensures forall i :: 0 <= i < |values| ==> r[|tags| + i].value == values[i]
    decreases |values|
  {
    if |values| == 0 then tags
    else
      var next := SetTag(tags, values[0]).0;
      var r := SetAll(next, values[1..]);
      assert forall i :: 1 <= i < |values| ==> values[i] == values[1..][i - 1];
      r
  }

  function TagValues(tags: seq<Testnod.Tag>): (values: seq<string>)
    ensures |values| == |tags|
    ensures forall i :: 0 <= i < |tags| ==> values[i] == tags[i].value
  {
    seq(|tags|, i requires 0 <= i < |tags| => tags[i].value)
  }

  /** `uploadTagsFlag.String`: the tag values joined with ",". */
  function TagsString(tags: seq<Testnod.Tag>): (s: string)
    ensures |tags| == 0 ==> s == ""
    ensures |tags| == 1 ==> s == tags[0].value
  {
    Strings.Join(TagValues(tags), ",")
  }

  /** `parseFlags` after `flag.Parse`: `args` are the positional arguments
      and `statSaysMissing(p)` holds when `os.Stat(p)` fails with a
      not-exist error. */
  function ParseFlags(flags: Flags, args: seq<string>, statSaysMissing: string -> bool): (p: Parsed)
    ensures p.config.ignoreFailures == flags.ignoreFailures
    ensures p.config.validateFile == flags.validate && p.config.token == flags.token
    ensures |p.config.tags| == |flags.tagValues|
            && forall i :: 0 <= i < |flags.tagValues| ==> p.config.tags[i].value == flags.tagValues[i]
    ensures p.err == Fail(NoFileSpecified) <==> |args| == 0
    ensures |args| > 0 ==> p.config.filePath == args[0]
    ensures p.err.Fail? && p.err.error.FileNotFound? <==> |args| > 0 && statSaysMissing(args[0])
    ensures |args| > 0 && statSaysMissing(args[0]) ==> p.err == Fail(FileNotFound(args[0]))
    ensures p.err == Fail(NoTokenSpecified) <==>
              |args| > 0 && !statSaysMissing(args[0]) && !flags.validate && flags.token == ""
    ensures p.err.Pass? <==> |args| > 0 && !statSaysMissing(args[0]) && (flags.validate || flags.token != "")
    ensures p.err.Pass? ==> p.config.uploadUrl == (if flags.uploadUrl == "" then DefaultUploadUrl else flags.uploadUrl)
  {
    var config := Config(flags.token, flags.validate, flags.branch, flags.commitSha, flags.runUrl,
                         flags.buildId, flags.ignoreFailures, flags.uploadUrl,
                         SetAll([], flags.tagValues), "");
    if |args| == 0 then Parsed(config, Fail(NoFileSpecified))
    else
      var config := config.(filePath := args[0]);
      if statSaysMissing(config.filePath) then Parsed(config, Fail(FileNotFound(config.filePath)))
      else
        var config := if config.uploadUrl == "" then config.(uploadUrl := DefaultUploadUrl) else config;
        if !config.validateFile && config.token == "" then Parsed(config, Fail(NoTokenSpecified))
        else Parsed(config, Pass)
  }

  /** `exitBasedOnIgnoreFailures`. */
  function ExitCode(ignoreFailures: bool): (code: int)
    ensures code == 0 <==> ignoreFailures
    ensures code == 1 <==> !ignoreFailures
  {
    if ignoreFailures then 0 else 1
  }

  /** The registration request `uploadToTestNod` builds. */
  function BuildRequest(config: Config): (request: Testnod.CreateTestRunRequest)
    ensures request.tags == config.tags
    ensures request.testRun.metadata.branch == config.branch
    ensures request.testRun.metadata.commitSha == config.commitSha
    ensures request.testRun.metadata.runUrl == config.runUrl
    ensures request.testRun.metadata.buildId == config.buildId
  {
    Testnod.CreateTestRunRequest(
      config.tags,
      Testnod.TestRun(Testnod.TestRunMetadata(config.branch, config.commitSha, config.runUrl, config.buildId)))
  }

  /** Everything outside the program a run depends on. */
  datatype Environment = Environment(
    statSaysMissing: string -> bool,
    // what validation sees of the file
    openError: Option<string>,
    stream: Validation.Stream,
    // the registration client's world
    marshal: Testnod.CreateTestRunRequest -> Result<Bytes, string>,
    net: nat -> Attempt,
    decode: Bytes -> Result<Testnod.SuccessfulServerResponse, string>,
    // the upload call `upload(filePath, presignedUrl)`
    upload: (string, string) -> Outcome)

  /** What a run did and the code it exited with. */
  datatype RunResult = RunResult(
    exitCode: int,
    validation: Option<Validation.Validation>,
    registration: Option<Testnod.Registration>,
    uploadCall: Option<(string, string)>)

  /** `main` once `flag.Parse` has returned: parse, then either validate
      only or register and upload. Every failure ends the process through
      `exitBasedOnIgnoreFailures`. */
  function Run(flags: Flags, args: seq<string>, env: Environment): (r: RunResult)
    ensures r.exitCode == 0 || r.exitCode == 1
    // local precondition failures end the run before anything else happens
    ensures ParseFlags(flags, args, env.statSaysMissing).err.Fail? ==>
              r.validation == None && r.registration == None && r.uploadCall == None
    // validation-only mode never touches the network
    ensures flags.validate ==> r.registration == None && r.uploadCall == None
    // the upload path does not run the validator
    ensures !flags.validate ==> r.validation == None
    // the upload goes to the presigned URL of a successful registration
    ensures r.uploadCall.Some? ==>
              && r.registration.Some? && r.registration.value.result.Success?
              && r.uploadCall.value == (args[0], r.registration.value.result.value.presignedUrl)
    // validation mode runs the validator on the file
    ensures ParseFlags(flags, args, env.statSaysMissing).err.Pass? && flags.validate ==>
              r.validation == Some(Validation.ValidateJUnitXmlFile(env.openError, env.stream))
    // upload mode registers the request built from the configuration
    ensures var p := ParseFlags(flags, args, env.statSaysMissing);
            p.err.Pass? && !flags.validate ==>
              r.registration == Some(Testnod.CreateTestRun(p.config.uploadUrl, flags.token, BuildRequest(p.config),
                                                           env.marshal, env.net, env.decode))
    // a successful registration is followed by the upload
    ensures r.registration.Some? && r.registration.value.result.Success? ==> r.uploadCall.Some?
  {
    var p := ParseFlags(flags, args, env.statSaysMissing);
    var config := p.config;
    if p.err.Fail? then RunResult(ExitCode(config.ignoreFailures), None, None, None)
    else if config.validateFile then
      var v := Validation.ValidateJUnitXmlFile(env.openError, env.stream);
      RunResult(if v.outcome.Pass? then 0 else ExitCode(config.ignoreFailures), Some(v), None, None)
    else
      var reg := Testnod.CreateTestRun(config.uploadUrl, config.token, BuildRequest(config),
                                       env.marshal, env.net, env.decode);
      if reg.result.Failure? then RunResult(ExitCode(config.ignoreFailures), None, Some(reg), None)
      else
        var call := (config.filePath, reg.result.value.presignedUrl);
        var uploaded := env.upload(call.0, call.1);
        RunResult(if uploaded.Pass? then 0 else ExitCode(config.ignoreFailures), None, Some(reg), Some(call))
  }

  /** A run succeeds when its flags check out and, in validation mode, the
      file validates, or otherwise both registration and upload succeed. */
  predicate RunSucceeds(flags: Flags, args: seq<string>, env: Environment) {
    && |args| > 0 && !env.statSaysMissing(args[0]) && (flags.validate || flags.token != "")
    && if flags.validate then
         Validation.ValidateJUnitXmlFile(env.openError, env.stream).outcome.Pass?
       else
         var config := ParseFlags(flags, args, env.statSaysMissing).config;
         var reg := Testnod.CreateTestRun(config.uploadUrl, config.token, BuildRequest(config),
                                          env.marshal, env.net, env.decode);
         reg.result.Success? && env.upload(args[0], reg.result.value.presignedUrl).Pass?
  }

  /** The process exits 0 exactly when the run succeeded or failures are
      ignored, and 1 otherwise. */
  lemma ExitCodeIff(flags: Flags, args: seq<string>, env: Environment)
    ensures Run(flags, args, env).exitCode == 0 <==> RunSucceeds(flags, args, env) || flags.ignoreFailures
    ensures Run(flags, args, env).exitCode == 1 <==> !RunSucceeds(flags, args, env) && !flags.ignoreFailures
  {
  }

  /** The registration request carries the `-tag` values in order and the
      branch, commit SHA, run URL and build id flags unchanged. */
  lemma RequestCarriesFlags(flags: Flags, args: seq<string>, statSaysMissing: string -> bool)
    ensures var request := BuildRequest(ParseFlags(flags, args, statSaysMissing).config);
            && TagValues(request.tags) == flags.tagValues
            && request.testRun.metadata
               == Testnod.TestRunMetadata(flags.branch, flags.commitSha, flags.runUrl, flags.buildId)
  {
  }

  /** `String` joins the tag values with commas in order: splitting it on
      "," gives them back whenever there is a tag and none holds a comma. */
  lemma TagsStringRoundTrip(tags: seq<Testnod.Tag>)
    requires |tags| >= 1
    requires forall i :: 0 <= i < |tags| ==> ',' !in tags[i].value
    ensures Strings.Split(TagsString(tags), ',') == TagValues(tags)
  {
    Strings.SplitJoin(TagValues(tags), ',');
  }

  /** `String` after `Set`: the new value follows the old string after a
      comma (or stands alone when there were no tags). */
  lemma {:induction false} TagsStringAfterSet(tags: seq<Testnod.Tag>, value: string)
    ensures TagsString(SetTag(tags, value).0)
            == if |tags| == 0 then value else TagsString(tags) + "," + value
    decreases |tags|
  {
    if |tags| > 1 {
      TagsStringAfterSet(tags[1..], value);
      assert TagValues(SetTag(tags, value).0)[1..] == TagValues(SetTag(tags[1..], value).0);
      assert TagValues(tags)[1..] == TagValues(tags[1..]);
    }
  }

  /** Tags "feature" then "backend" print as "feature,backend". */
  lemma TagsStringExample()
    ensures TagsString(SetAll([], ["feature", "backend"])) == "feature,backend"
  {
  }

  /** A report that stat finds missing is named in the error. */
  lemma FileNotFoundExample()
    ensures Message(ParseFlags(Flags("", false, "", "", "", "", false, "", []), ["test.xml"], p => true).err.error)
            == "file not found: test.xml"
  {
  }
}

=== FILE: errors.dfy ===
/** Values shared by every component of the uploader: optional values,
    results, and the error values its Go functions return. */
module Errors {

  datatype Option<+T> = None | Some(value: T)

  /** A Go `(T, error)` pair in which exactly one side is meaningful. */
  datatype Result<+T, +E> = Success(value: T) | Failure(error: E)

  /** A Go `error` return: `nil` is `Pass`. */
  datatype Outcome = Pass | Fail(error: Error)

  /** One constructor per `fmt.Errorf` format of the uploader. A wrapped Go
      error (`%w`) is carried as its message text `cause`. */
  datatype Error =
    // registration and upload (internal/testnod, internal/upload)
    | MarshalFailed(cause: string)
    | CreateRequestFailed(cause: string)
    | PerformRequestFailed(cause: string)
    | NonOkResponse(detail: string)
    | DecodeFailed(cause: string)
    | OpenFailed(cause: string)
    | CreateUploadRequestFailed(cause: string)
    | StatFailed(cause: string)
    | UploadSendFailed(cause: string)
    | UploadRejected
    // JUnit validation (internal/validation)
    | ParseXmlFailed(cause: string)
    | NotJUnit
    // command line (cmd/testnod-uploader)
    | NoFileSpecified
    | FileNotFound(path: string)
    | NoTokenSpecified

  /** The text `err.Error()` returns for each error value. */
  function Message(e: Error): (text: string) {
    match e
    case MarshalFailed(c) => "failed to marshal request body: " + c
    case CreateRequestFailed(c) => "failed to create request: " + c
    case PerformRequestFailed(c) => "failed to perform request: " + c
    case NonOkResponse(d) => "received non-OK response: " + d
    case DecodeFailed(c) => "failed to decode response body: " + c
    case OpenFailed(c) => "failed to open file: " + c
    case CreateUploadRequestFailed(c) => "failed to create upload request: " + c
    case StatFailed(c) => "failed to stat file: " + c
    case UploadSendFailed(c) => "failed to upload file: " + c
    case UploadRejected => "failed to upload file"
    case ParseXmlFailed(c) => "error parsing XML: " + c
    case NotJUnit => "doesn't seem to be a valid JUnit XML file"
    case NoFileSpecified => "no file specified"
    case FileNotFound(p) => "file not found: " + p
    case NoTokenSpecified => "no token specified"
  }

  /** A decode failure ("the server answered wrongly") never reads like a
      rejection or a transport failure ("the server never said yes"). */
  lemma DecodeFailureIsDistinguishable(cause: string, other: Error)
    requires other.NonOkResponse? || other.PerformRequestFailed? || other.CreateRequestFailed?
    ensures Message(DecodeFailed(cause)) != Message(other)
  {
    var m := Message(DecodeFailed(cause));
    assert m[0] == 'f' && m[10] == 'd';
    match other
    case NonOkResponse(_) => assert Message(other)[0] == 'r';
    case PerformRequestFailed(_) => assert Message(other)[10] == 'p';
    case CreateRequestFailed(_) => assert Message(other)[10] == 'c';
  }
}

=== FILE: http.dfy ===
/** The slice of HTTP the uploader relies on: status codes, headers, and the
    outcome of building and sending one request. */
module Http {

  newtype Byte = x: int | 0 <= x < 0x100

  type Bytes = seq<Byte>

  /** `http.StatusOK` and `http.StatusCreated`. */
  const StatusOk: int := 200
  const StatusCreated: int := 201

  /** A response status: its numeric code and the status line Go reports in
      `resp.Status`, such as "400 Bad Request". */
  datatype Status = Status(code: int, line: string)

  datatype Header = Header(name: string, value: string)

  /** What one attempt at a request gives: `http.NewRequest` failed, the
      transport (`client.Do`) failed, or the server answered. */
  datatype Attempt =
    | BuildErr(cause: string)
    | TransportErr(cause: string)
    | Answered(status: Status, body: Bytes)
}

=== FILE: strings.dfy ===
/** Go's `strings.Join`, and `strings.Split` on a one-character separator,
    which undoes it. */
module Strings {

  /** `strings.Join(parts, sep)`. */
  function Join(parts: seq<string>, sep: string): (s: string)
    ensures |parts| == 0 ==> s == ""
    ensures |parts| == 1 ==> s == parts[0]
    decreases |parts|
  {
    if |parts| == 0 then ""
    else if |parts| == 1 then parts[0]
    else parts[0] + sep + Join(parts[1..], sep)
  }

  /** `strings.Split(s, string(sep))`: the pieces between occurrences of
      `sep`; the empty string gives one empty piece. */
  function Split(s: string, sep: char): (pieces: seq<string>)
    ensures |pieces| >= 1
    decreases |s|
  {
    if |s| == 0 then [""]
    else
      var rest := Split(s[1..], sep);
      if s[0] == sep then [""] + rest else [[s[0]] + rest[0]] + rest[1..]
  }

  lemma {:induction false} SplitWithoutSeparator(s: string, sep: char)
    requires sep !in s
    ensures Split(s, sep) == [s]
    decreases |s|
  {
    if |s| > 0 {
      SplitWithoutSeparator(s[1..], sep);
      assert [s[0]] + s[1..] == s;
    }
  }

  lemma {:induction false} SplitAfterPiece(piece: string, tail: string, sep: char)
    requires sep !in piece
    ensures Split(piece + [sep] + tail, sep) == [piece] + Split(tail, sep)
    decreases |piece|
  {
    var s := piece + [sep] + tail;
    if |piece| == 0 {
      assert s[1..] == tail;
    } else {
      assert s[1..] == piece[1..] + [sep] + tail;
      SplitAfterPiece(piece[1..], tail, sep);
      assert [piece[0]] + piece[1..] == piece;
    }
  }

  /** Splitting a join on its separator gives the parts back, in order, as
      long as there is at least one part and no part holds the separator. */
  lemma {:induction false} SplitJoin(parts: seq<string>, sep: char)
    requires |parts| >= 1
    requires forall i :: 0 <= i < |parts| ==> sep !in parts[i]
    ensures Split(Join(parts, [sep]), sep) == parts
    decreases |parts|
  {
    if |parts| == 1 {
      SplitWithoutSeparator(parts[0], sep);
    } else {
      SplitJoin(parts[1..], sep);
      SplitAfterPiece(parts[0], Join(parts[1..], [sep]), sep);
      assert [parts[0]] + parts[1..] == parts;
    }
  }
}

=== FILE: testnod.dfy ===
/** Test-run registration (internal/testnod/testnod.go): one JSON body,
    POSTed up to three times until the service answers 201 Created, then
    decoded once. */
module Testnod {
  import opened Errors
  import opened Http

  /** `retry.Attempts(3)`. */
  const MaxAttempts: nat := 3

  datatype Tag = Tag(value: string)

  datatype TestRunMetadata = TestRunMetadata(branch: string, commitSha: string, runUrl: string, buildId: string)

  datatype TestRun = TestRun(metadata: TestRunMetadata)

  datatype CreateTestRunRequest = CreateTestRunRequest(tags: seq<Tag>, testRun: TestRun)

  datatype SuccessfulServerResponse =
    SuccessfulServerResponse(id: int, project: string, testRunUrl: string, presignedUrl: string)

  /** A POST handed to the transport. */
  datatype Post = Post(url: string, headers: seq<Header>, body: Bytes)

  /** What one call of `CreateTestRun` did: how many attempts it started,
      the POSTs that reached the transport, and what it returned. */
  datatype Registration =
    Registration(attempts: nat, posts: seq<Post>, result: Result<SuccessfulServerResponse, Error>)

  function RegistrationHeaders(projectToken: string): (headers: seq<Header>) {
    [ Header("Content-Type", "application/json"),
      Header("Accept", "application/json"),
      Header("Project-Token", projectToken) ]
  }

  /** An attempt succeeds exactly when the service answers 201 Created. */
  predicate Succeeded(a: Attempt) {
    a.Answered? && a.status.code == StatusCreated
  }

  /** The error a failed attempt reports to the retry loop: which step
      failed decides the kind, and a bad status reports its status line. */
  function AttemptError(a: Attempt): (e: Error)
    requires !Succeeded(a)
    ensures e.CreateRequestFailed? <==> a.BuildErr?
    ensures e.PerformRequestFailed? <==> a.TransportErr?
    ensures e.NonOkResponse? <==> a.Answered?
    ensures a.Answered? ==> Message(e) == "received non-OK response: " + a.status.line
  {
    match a
    case BuildErr(c) => CreateRequestFailed(c)
    case TransportErr(c) => PerformRequestFailed(c)
    case Answered(st, _) => NonOkResponse(st.line)
  }

  /** The number of attempts the retry loop has made when it stops, having
      started at attempt `k`: it stops after the first success or after
      attempt `MaxAttempts - 1`, whichever comes first. */
  function AttemptsFrom(net: nat -> Attempt, k: nat): (n: nat)
    requires k < MaxAttempts
    ensures k < n <= MaxAttempts
    ensures forall i :: k <= i < n - 1 ==> !Succeeded(net(i))
    ensures Succeeded(net(n - 1)) || n == MaxAttempts
    decreases MaxAttempts - k
  {
    if Succeeded(net(k)) || k + 1 == MaxAttempts then k + 1 else AttemptsFrom(net, k + 1)
  }

  /** The POSTs that reach the transport during the first `n` attempts: one
      per attempt whose request could be built, each the same `post`. */
  function PostsFor(net: nat -> Attempt, n: nat, post: Post): (ps: seq<Post>)
    ensures |ps| <= n
    ensures forall j :: 0 <= j < |ps| ==> ps[j] == post
    ensures (forall i :: 0 <= i < n ==> !net(i).BuildErr?) ==> |ps| == n
  {
    if n == 0 then []
    else PostsFor(net, n - 1, post) + (if net(n - 1).BuildErr? then [] else [post])
  }

  /** `CreateTestRun`. `marshal` stands for `json.Marshal`, `net(i)` for
      the outcome of attempt `i` and `decode` for decoding a 201 body. */
  function CreateTestRun(
    uploadUrl: string, projectToken: string, request: CreateTestRunRequest,
    marshal: CreateTestRunRequest -> Result<Bytes, string>,
    net: nat -> Attempt,
    decode: Bytes -> Result<SuccessfulServerResponse, string>): (r: Registration)
    // a marshal failure is reported before any attempt
    ensures marshal(request).Failure? ==>
              r == Registration(0, [], Failure(MarshalFailed(marshal(request).error)))
    ensures marshal(request).Success? ==> 1 <= r.attempts <= MaxAttempts
    // no attempt follows a successful one
    ensures forall i :: 0 <= i < r.attempts - 1 ==> !Succeeded(net(i))
    // the body is marshalled once: every POST carries the same bytes
    ensures forall j :: 0 <= j < |r.posts| ==>
              marshal(request).Success? && r.posts[j].body == marshal(request).value
              && r.posts[j].url == uploadUrl && r.posts[j].headers == RegistrationHeaders(projectToken)
    ensures |r.posts| <= r.attempts
    ensures r.result.Success? <==>
              r.attempts > 0 && Succeeded(net(r.attempts - 1)) && decode(net(r.attempts - 1).body).Success?
    ensures r.result.Success? ==> r.result.value == decode(net(r.attempts - 1).body).value
  {
    match marshal(request)
    case Failure(c) => Registration(0, [], Failure(MarshalFailed(c)))
    case Success(bytes) =>
      var n := AttemptsFrom(net, 0);
      var posts := PostsFor(net, n, Post(uploadUrl, RegistrationHeaders(projectToken), bytes));
      var last := net(n - 1);
      if !Succeeded(last) then Registration(n, posts, Failure(AttemptError(last)))
      else
        match decode(last.body)
        case Failure(c) => Registration(n, posts, Failure(DecodeFailed(c)))
        case Success(resp) => Registration(n, posts, Success(resp))
  }

  /** The loop makes one attempt per failure up to the first 201, so the
      attempt count is the position of the first success, plus one. */
  lemma AttemptsEndAtFirstSuccess(
    uploadUrl: string, projectToken: string, request: CreateTestRunRequest,
    marshal: CreateTestRunRequest -> Result<Bytes, string>,
    net: nat -> Attempt,
    decode: Bytes -> Result<SuccessfulServerResponse, string>, k: nat)
    requires marshal(request).Success?
    requires k < MaxAttempts && Succeeded(net(k))
    requires forall i :: 0 <= i < k ==> !Succeeded(net(i))
    ensures CreateTestRun(uploadUrl, projectToken, request, marshal, net, decode).attempts == k + 1
  {
  }

  /** When every attempt fails, exactly `MaxAttempts` are made and only the
      last attempt's error is returned. */
  lemma AllAttemptsFail(
    uploadUrl: string, projectToken: string, request: CreateTestRunRequest,
    marshal: CreateTestRunRequest -> Result<Bytes, string>,
    net: nat -> Attempt,
    decode: Bytes -> Result<SuccessfulServerResponse, string>)
    requires marshal(request).Success?
    requires forall i :: 0 <= i < MaxAttempts ==> !Succeeded(net(i))
    ensures var r := CreateTestRun(uploadUrl, projectToken, request, marshal, net, decode);
            r.attempts == MaxAttempts && r.result == Failure(AttemptError(net(MaxAttempts - 1)))
  {
  }

  /** A decode failure after a 201 is fatal: the attempt count stays at the
      201 attempt and the error is "failed to decode response body". */
  lemma DecodeFailureNotRetried(
    uploadUrl: string, projectToken: string, request: CreateTestRunRequest,
    marshal: CreateTestRunRequest -> Result<Bytes, string>,
    net: nat -> Attempt,
    decode: Bytes -> Result<SuccessfulServerResponse, string>, k: nat)
    requires marshal(request).Success?
    requires k < MaxAttempts && Succeeded(net(k))
    requires forall i :: 0 <= i < k ==> !Succeeded(net(i))
    requires decode(net(k).body).Failure?
    ensures var r := CreateTestRun(uploadUrl, projectToken, request, marshal, net, decode);
            r.attempts == k + 1 && r.result == Failure(DecodeFailed(decode(net(k).body).error))
  {
    AttemptsEndAtFirstSuccess(uploadUrl, projectToken, request, marshal, net, decode, k);
  }

  /** The status decides an attempt: a first answer with status `st` ends
      the loop at once exactly when `st` is 201; any other status is a
      failed attempt reported as "received non-OK response: <status line>". */
  lemma FirstAnswerDecides(
    uploadUrl: string, projectToken: string, request: CreateTestRunRequest,
    marshal: CreateTestRunRequest -> Result<Bytes, string>,
    net: nat -> Attempt,
    decode: Bytes -> Result<SuccessfulServerResponse, string>)
    requires marshal(request).Success?
    requires net(0).Answered?
    ensures var r := CreateTestRun(uploadUrl, projectToken, request, marshal, net, decode);
            r.attempts == 1 <==> net(0).status.code == StatusCreated
    ensures !Succeeded(net(0)) ==>
              Message(AttemptError(net(0))) == "received non-OK response: " + net(0).status.line
  {
  }

  /** Request-construction and transport errors are failed attempts and are
      retried like a bad status: on any attempt but the last, such an error
      (with no success before it) is followed by another attempt. */
  lemma SendErrorsAreRetried(
    uploadUrl: string, projectToken: string, request: CreateTestRunRequest,
    marshal: CreateTestRunRequest -> Result<Bytes, string>,
    net: nat -> Attempt,
    decode: Bytes -> Result<SuccessfulServerResponse, string>, k: nat)
    requires marshal(request).Success?
    requires k < MaxAttempts - 1
    requires forall i :: 0 <= i < k ==> !Succeeded(net(i))
    requires net(k).BuildErr? || net(k).TransportErr?
    ensures CreateTestRun(uploadUrl, projectToken, request, marshal, net, decode).attempts >= k + 2
  {
  }

  /** Two 500 answers and then a 201 with a decodable body: three attempts,
      and the decoded record is returned field for field. */
  lemma RetryThenSucceed(
    request: CreateTestRunRequest, marshal: CreateTestRunRequest -> Result<Bytes, string>,
    decode: Bytes -> Result<SuccessfulServerResponse, string>, body: Bytes)
    requires marshal(request).Success?
    requires decode(body) == Success(SuccessfulServerResponse(
               123, "test-project", "https://example.com/test/123", "https://s3.amazonaws.com/upload"))
    ensures var net := (i: nat) => if i < 2 then Answered(Status(500, "500 Internal Server Error"), [])
                                   else Answered(Status(StatusCreated, "201 Created"), body);
            var r := CreateTestRun("http://server", "test-token", request, marshal, net, decode);
            && r.attempts == 3
            && r.result.Success?
            && r.result.value.id == 123
            && r.result.value.project == "test-project"
            && r.result.value.testRunUrl == "https://example.com/test/123"
            && r.result.value.presignedUrl == "https://s3.amazonaws.com/upload"
  {
  }

  /** A 201 with an empty body, which Go's JSON decoder rejects, fails with
      "failed to decode response body" after a single attempt. */
  lemma EmptyCreatedBodyFails(
    request: CreateTestRunRequest, marshal: CreateTestRunRequest -> Result<Bytes, string>,
    decode: Bytes -> Result<SuccessfulServerResponse, string>)
    requires marshal(request).Success?
    requires decode([]) == Failure("EOF")
    ensures var net := (i: nat) => Answered(Status(StatusCreated, "201 Created"), []);
            var r := CreateTestRun("http://server", "test-token", request, marshal, net, decode);
            r.attempts == 1 && r.result == Failure(DecodeFailed("EOF"))
            && Message(r.result.error) == "failed to decode response body: EOF"
  {
  }

  /** A URL `http.NewRequest` cannot parse fails the same way on every
      attempt: three attempts, no POST sent, and the construction error. */
  lemma BadUrlFailsEveryAttempt(
    uploadUrl: string, projectToken: string, request: CreateTestRunRequest,
    marshal: CreateTestRunRequest -> Result<Bytes, string>,
    decode: Bytes -> Result<SuccessfulServerResponse, string>, cause: string)
    requires marshal(request).Success?
    ensures var net := (i: nat) => BuildErr(cause);
            var r := CreateTestRun(uploadUrl, projectToken, request, marshal, net, decode);
            r.attempts == MaxAttempts && r.posts == [] && r.result == Failure(CreateRequestFailed(cause))
  {
    var net := (i: nat) => BuildErr(cause);
    var post := Post(uploadUrl, RegistrationHeaders(projectToken), marshal(request).value);
    assert AttemptsFrom(net, 0) == MaxAttempts;
    assert PostsFor(net, 1, post) == [];
    assert PostsFor(net, 2, post) == [];
    assert PostsFor(net, 3, post) == [];
  }
}

=== FILE: upload.dfy ===
/** The single-shot two-phase upload (internal/upload/upload.go): register a
    test run with one POST, then PUT the file to the presigned URL once. The
    result is Go's `(statusCode, testRunURL, error)` triple. */
module Upload {
  import opened Errors
  import opened Http

  datatype Tags = Tags(value: string)

  /** upload.go's metadata has no build id, unlike the registration client's. */
  datatype TestRunMetadata = TestRunMetadata(branch: string, commitSha: string, runUrl: string)

  datatype TestRun = TestRun(metadata: TestRunMetadata)

  datatype UploadRequest = UploadRequest(tags: seq<Tags>, testRun: TestRun)

  datatype FailedServerResponse = FailedServerResponse(errorMsg: string)

  datatype SuccessfulServerResponse =
    SuccessfulServerResponse(id: int, project: string, testRunUrl: string, presignedUrl: string)

  /** The file as the pipeline sees it: whether `os.Open` and `file.Stat`
      fail, and its bytes (whose count `Stat` reports as the size). */
  datatype LocalFile = LocalFile(openError: Option<string>, statError: Option<string>, contents: Bytes)

  /** The remote side: the registration attempt, the two body decoders, and
      the upload attempt. */
  datatype Service = Service(
    register: Attempt,
    decodeFailure: Bytes -> Result<FailedServerResponse, string>,
    decodeSuccess: Bytes -> Result<SuccessfulServerResponse, string>,
    upload: Attempt)

  datatype Post = Post(url: string, headers: seq<Header>, body: Bytes)

  datatype Put = Put(url: string, headers: seq<Header>, contentLength: int, body: Bytes)

  /** The returned triple, plus what the pipeline did on the way: the POSTs
      and PUTs handed to the transport and whether the file was opened. */
  datatype UploadRun = UploadRun(
    statusCode: int, testRunUrl: string, err: Outcome,
    posts: seq<Post>, fileOpened: bool, puts: seq<Put>)

  function RegistrationHeaders(projectToken: string): (headers: seq<Header>) {
    [ Header("Content-Type", "application/json"),
      Header("Accept", "application/json"),
      Header("Project-Token", projectToken) ]
  }

  const UploadHeaders: seq<Header> := [Header("Content-Type", "application/xml")]

  /** The second phase, entered with a decoded 201 answer whose status is
      `registered`. */
  function UploadPhase(file: LocalFile, registered: int, created: SuccessfulServerResponse,
                       posts: seq<Post>, upload: Attempt): (r: UploadRun)
    ensures r.posts == posts
    ensures r.fileOpened <==> file.openError.None?
    ensures |r.puts| <= 1
    ensures |r.puts| == 1 <==> file.openError.None? && file.statError.None? && !upload.BuildErr?
    ensures |r.puts| == 1 ==>
              r.puts[0] == Put(created.presignedUrl, UploadHeaders, |file.contents|, file.contents)
    ensures r.err.Pass? <==>
              file.openError.None? && file.statError.None? && upload.Answered? && upload.status.code == StatusOk
    ensures r.err.Pass? ==> r.statusCode == registered && r.testRunUrl == created.testRunUrl
    ensures r.err.Fail? ==> r.testRunUrl == ""
    // which step failed decides the error and the status code
    ensures file.openError.Some? ==> r.statusCode == 0 && r.err == Fail(OpenFailed(file.openError.value))
    ensures file.openError.None? && upload.BuildErr? ==>
              r.statusCode == 0 && r.err == Fail(CreateUploadRequestFailed(upload.cause))
    ensures file.openError.None? && !upload.BuildErr? && file.statError.Some? ==>
              r.statusCode == 0 && r.err == Fail(StatFailed(file.statError.value))
    ensures file.openError.None? && file.statError.None? && upload.TransportErr? ==>
              r.statusCode == 0 && r.err == Fail(UploadSendFailed(upload.cause))
    ensures file.openError.None? && file.statError.None? && upload.Answered? && upload.status.code != StatusOk ==>
              r.statusCode == upload.status.code && r.err == Fail(UploadRejected)
  {
    match file.openError
    case Some(c) => UploadRun(0, "", Fail(OpenFailed(c)), posts, false, [])
    case None =>
      if upload.BuildErr? then
        UploadRun(0, "", Fail(CreateUploadRequestFailed(upload.cause)), posts, true, [])
      else if file.statError.Some? then
        UploadRun(0, "", Fail(StatFailed(file.statError.value)), posts, true, [])
      else
        var put := Put(created.presignedUrl, UploadHeaders, |file.contents|, file.contents);
        match upload
        case TransportErr(c) => UploadRun(0, "", Fail(UploadSendFailed(c)), posts, true, [put])
        case Answered(st, _) =>
          if st.code != StatusOk then UploadRun(st.code, "", Fail(UploadRejected), posts, true, [put])
          else UploadRun(registered, created.testRunUrl, Pass, posts, true, [put])
  }

  /** Every step that must go right for the upload to succeed. */
  predicate AllStepsSucceed(file: LocalFile, request: UploadRequest,
                            marshal: UploadRequest -> Result<Bytes, string>, svc: Service)
  {
    && marshal(request).Success?
    && svc.register.Answered? && svc.register.status.code == StatusCreated
    && svc.decodeSuccess(svc.register.body).Success?
    && file.openError.None? && file.statError.None?
    && svc.upload.Answered? && svc.upload.status.code == StatusOk
  }

  /** `UploadJUnitXmlFile`; `marshal` stands for `json.Marshal`. */
  function UploadJUnitXmlFile(file: LocalFile, uploadUrl: string, projectToken: string,
                              request: UploadRequest,
                              marshal: UploadRequest -> Result<Bytes, string>,
                              svc: Service): (r: UploadRun)
    // each phase is attempted at most once: there is no retry
    ensures |r.posts| <= 1 && |r.puts| <= 1
    // exactly one POST goes out once the body is marshalled and the request built
    ensures marshal(request).Failure? || svc.register.BuildErr? ==> r.posts == []
    ensures marshal(request).Success? && !svc.register.BuildErr? ==>
              r.posts == [Post(uploadUrl, RegistrationHeaders(projectToken), marshal(request).value)]
    // the file is opened only after a decoded 201
    ensures r.fileOpened ==>
              && svc.register.Answered? && svc.register.status.code == StatusCreated
              && svc.decodeSuccess(svc.register.body).Success?
    ensures |r.puts| == 1 ==>
              && r.fileOpened
              && r.puts[0].url == svc.decodeSuccess(svc.register.body).value.presignedUrl
              && r.puts[0].contentLength == |file.contents|
              && r.puts[0].body == file.contents
    ensures r.err.Pass? <==> AllStepsSucceed(file, request, marshal, svc)
    // success reports the registration status and run URL, not the upload's status
    ensures r.err.Pass? ==>
              && r.statusCode == StatusCreated
              && r.testRunUrl == svc.decodeSuccess(svc.register.body).value.testRunUrl
    ensures r.err.Fail? ==> r.testRunUrl == ""
    // a non-zero status on failure only accompanies a server rejection
    ensures r.err.Fail? && r.statusCode != 0 ==> r.err.error.NonOkResponse? || r.err.error == UploadRejected
  {
    match marshal(request)
    case Failure(c) => UploadRun(0, "", Fail(MarshalFailed(c)), [], false, [])
    case Success(bytes) =>
      var post := Post(uploadUrl, RegistrationHeaders(projectToken), bytes);
      match svc.register
      case BuildErr(c) => UploadRun(0, "", Fail(CreateRequestFailed(c)), [], false, [])
      case TransportErr(c) => UploadRun(0, "", Fail(PerformRequestFailed(c)), [post], false, [])
      case Answered(st, body) =>
        if st.code != StatusCreated then
          match svc.decodeFailure(body)
          case Failure(c) => UploadRun(0, "", Fail(DecodeFailed(c)), [post], false, [])
          case Success(f) => UploadRun(st.code, "", Fail(NonOkResponse(f.errorMsg)), [post], false, [])
        else
          match svc.decodeSuccess(body)
          case Failure(c) => UploadRun(0, "", Fail(DecodeFailed(c)), [post], false, [])
          case Success(created) => UploadPhase(file, st.code, created, [post], svc.upload)
  }

  /** The local and transport failures before and around the two requests
      each return status 0, no run URL, and their own error. */
  lemma StepFailures(file: LocalFile, uploadUrl: string, projectToken: string,
                     request: UploadRequest,
                     marshal: UploadRequest -> Result<Bytes, string>, svc: Service)
    ensures var r := UploadJUnitXmlFile(file, uploadUrl, projectToken, request, marshal, svc);
            && (marshal(request).Failure? ==>
                  r.statusCode == 0 && r.testRunUrl == "" && r.err == Fail(MarshalFailed(marshal(request).error))
                  && r.posts == [])
            && (marshal(request).Success? && svc.register.BuildErr? ==>
                  r.statusCode == 0 && r.testRunUrl == "" && r.err == Fail(CreateRequestFailed(svc.register.cause))
                  && r.posts == [])
            && (marshal(request).Success? && svc.register.TransportErr? ==>
                  r.statusCode == 0 && r.testRunUrl == "" && r.err == Fail(PerformRequestFailed(svc.register.cause))
                  && |r.posts| == 1 && !r.fileOpened)
  {
  }

  /** After a decoded 201 and a successful open, failing to build the PUT
      or to stat the file returns status 0, no run URL, its own error, and
      sends nothing. */
  lemma PutPreparationFailures(file: LocalFile, uploadUrl: string, projectToken: string,
                               request: UploadRequest,
                               marshal: UploadRequest -> Result<Bytes, string>, svc: Service)
    requires marshal(request).Success?
    requires svc.register.Answered? && svc.register.status.code == StatusCreated
    requires svc.decodeSuccess(svc.register.body).Success?
    requires file.openError.None?
    ensures var r := UploadJUnitXmlFile(file, uploadUrl, projectToken, request, marshal, svc);
            && (svc.upload.BuildErr? ==>
                  r.statusCode == 0 && r.testRunUrl == ""
                  && r.err == Fail(CreateUploadRequestFailed(svc.upload.cause)) && r.puts == [])
            && (!svc.upload.BuildErr? && file.statError.Some? ==>
                  r.statusCode == 0 && r.testRunUrl == ""
                  && r.err == Fail(StatFailed(file.statError.value)) && r.puts == [])
  {
  }

  /** A non-201 registration with a decodable failure envelope returns that
      status and the service's message; the file is never opened. */
  lemma RejectedRegistration(file: LocalFile, uploadUrl: string, projectToken: string,
                             request: UploadRequest,
                             marshal: UploadRequest -> Result<Bytes, string>, svc: Service)
    requires marshal(request).Success?
    requires svc.register.Answered? && svc.register.status.code != StatusCreated
    requires svc.decodeFailure(svc.register.body).Success?
    ensures var r := UploadJUnitXmlFile(file, uploadUrl, projectToken, request, marshal, svc);
            && r.statusCode == svc.register.status.code
            && r.err == Fail(NonOkResponse(svc.decodeFailure(svc.register.body).value.errorMsg))
            && !r.fileOpened && r.puts == []
  {
  }

  /** An undecodable answer, whether a failure envelope or a 201 body, gives
      status 0 and "failed to decode response body". */
  lemma UndecodableAnswer(file: LocalFile, uploadUrl: string, projectToken: string,
                          request: UploadRequest,
                          marshal: UploadRequest -> Result<Bytes, string>, svc: Service)
    requires marshal(request).Success?
    requires svc.register.Answered?
    requires if svc.register.status.code == StatusCreated
             then svc.decodeSuccess(svc.register.body).Failure?
             else svc.decodeFailure(svc.register.body).Failure?
    ensures var r := UploadJUnitXmlFile(file, uploadUrl, projectToken, request, marshal, svc);
            && r.statusCode == 0 && r.testRunUrl == ""
            && r.err.Fail? && r.err.error.DecodeFailed?
            && !r.fileOpened
  {
  }

  /** A file that cannot be opened after a decoded 201 gives status 0 and
      "failed to open file", and nothing is PUT. */
  lemma OpenFailureAfterRegistration(file: LocalFile, uploadUrl: string, projectToken: string,
                                     request: UploadRequest,
                                     marshal: UploadRequest -> Result<Bytes, string>, svc: Service)
    requires marshal(request).Success?
    requires svc.register.Answered? && svc.register.status.code == StatusCreated
    requires svc.decodeSuccess(svc.register.body).Success?
    requires file.openError.Some?
    ensures var r := UploadJUnitXmlFile(file, uploadUrl, projectToken, request, marshal, svc);
            r == UploadRun(0, "", Fail(OpenFailed(file.openError.value)), r.posts, false, [])
  {
  }

  /** The upload's own failures: a non-200 answer returns the upload status
      and "failed to upload file"; a transport failure returns status 0. */
  lemma UploadFailures(file: LocalFile, uploadUrl: string, projectToken: string,
                       request: UploadRequest,
                       marshal: UploadRequest -> Result<Bytes, string>, svc: Service)
    requires marshal(request).Success?
    requires svc.register.Answered? && svc.register.status.code == StatusCreated
    requires svc.decodeSuccess(svc.register.body).Success?
    requires file.openError.None? && file.statError.None?
    ensures var r := UploadJUnitXmlFile(file, uploadUrl, projectToken, request, marshal, svc);
            && (svc.upload.Answered? && svc.upload.status.code != StatusOk ==>
                  r.statusCode == svc.upload.status.code && r.err == Fail(UploadRejected)
                  && Message(r.err.error) == "failed to upload file")
            && (svc.upload.TransportErr? ==>
                  r.statusCode == 0 && r.err == Fail(UploadSendFailed(svc.upload.cause)))
            && (!svc.upload.BuildErr? ==> |r.puts| == 1 && r.puts[0].contentLength == |file.contents|)
  {
  }

  /** How Go's HTTP client frames a request body on the wire. */
  datatype Framing = ContentLengthHeader(length: int) | Chunked

  /** The body a request carries: `http.NoBody`, or a reader such as the
      open `*os.File`. */
  datatype BodyKind = NoBody | Reader

  /** Go's client rule for a PUT (`Request.outgoingLength` and the transfer
      writer): a `ContentLength` of 0 with a reader body counts as unknown,
      and a PUT of unknown length is sent chunked; any other length, and
      `http.NoBody`, get a Content-Length header. */
  function WireFraming(contentLength: int, body: BodyKind): (f: Framing) {
    if body.NoBody? then ContentLengthHeader(0)
    else if contentLength != 0 then ContentLengthHeader(contentLength)
    else Chunked
  }

  /** The framing of a PUT as upload.go builds it: the body is the file. */
  function SentFraming(p: Put): (f: Framing) {
    WireFraming(p.contentLength, Reader)
  }

  /** The framing the comment above `file.Stat()` asks for, obtained by
      sending an empty file as `http.NoBody`. */
  function CorrectedFraming(p: Put): (f: Framing) {
    WireFraming(p.contentLength, if p.contentLength == 0 then NoBody else Reader)
  }

  /** A non-empty file goes out with a Content-Length header equal to its
      size. */
  lemma NonEmptyFileSentWithLength(file: LocalFile, uploadUrl: string, projectToken: string,
                                   request: UploadRequest,
                                   marshal: UploadRequest -> Result<Bytes, string>, svc: Service)
    requires |file.contents| > 0
    ensures var r := UploadJUnitXmlFile(file, uploadUrl, projectToken, request, marshal, svc);
            |r.puts| == 1 ==> SentFraming(r.puts[0]) == ContentLengthHeader(|file.contents|)
  {
  }

  /** As written, an empty file sets the request's ContentLength field to
      0, which Go reads as "unknown": the PUT goes out chunked, without the
      Content-Length header the code sets out to send. */
  lemma EmptyFileSentChunked(uploadUrl: string, projectToken: string,
                             request: UploadRequest,
                             marshal: UploadRequest -> Result<Bytes, string>, svc: Service)
    requires marshal(request).Success?
    requires svc.register.Answered? && svc.register.status.code == StatusCreated
    requires svc.decodeSuccess(svc.register.body).Success?
    requires svc.upload.Answered?
    ensures var r := UploadJUnitXmlFile(LocalFile(None, None, []), uploadUrl, projectToken, request, marshal, svc);
            |r.puts| == 1 && r.puts[0].contentLength == 0 && SentFraming(r.puts[0]) == Chunked
  {
  }

  /** With an empty file sent as `http.NoBody`, every PUT the pipeline
      makes carries a Content-Length header equal to the file size,
      0 included. */
  lemma CorrectedFramingSendsLength(file: LocalFile, uploadUrl: string, projectToken: string,
                                    request: UploadRequest,
                                    marshal: UploadRequest -> Result<Bytes, string>, svc: Service)
    ensures var r := UploadJUnitXmlFile(file, uploadUrl, projectToken, request, marshal, svc);
            |r.puts| == 1 ==> CorrectedFraming(r.puts[0]) == ContentLengthHeader(|file.contents|)
  {
  }
}

=== FILE: validation.dfy ===
/** JUnit XML validation (internal/validation/validation.go): a scan of the
    file's XML tokens for a start element whose local name is `testsuite`. */
module Validation {
  import opened Errors

  const TestSuite: string := "testsuite"

  /** An XML name: namespace and local part (`xml.Name`). */
  datatype Name = Name(space: string, local: string)

  /** The tokens `encoding/xml`'s decoder yields. */
  datatype Token =
    | StartElement(name: Name)
    | EndElement(name: Name)
    | CharData(text: string)
    | Comment(text: string)
    | ProcInst(target: string)
    | Directive(text: string)

  /** How the token stream stops: `io.EOF` or another tokenizer error. */
  datatype End = Eof | TokenizerError(cause: string)

  datatype Stream = Stream(tokens: seq<Token>, end: End)

  /** What one validation did: its verdict and how many times it asked the
      decoder for a token. */
  datatype Validation = Validation(outcome: Outcome, tokenCalls: nat)

  predicate IsTestSuiteStart(t: Token) {
    t.StartElement? && t.name.local == TestSuite
  }

  predicate ContainsTestSuite(tokens: seq<Token>) {
    exists i :: 0 <= i < |tokens| && IsTestSuiteStart(tokens[i])
  }

  /** The loop's fold: `seen` is the `hasTestSuite` flag on entry. */
  function Scan(tokens: seq<Token>, seen: bool): (found: bool)
    ensures found <==> seen || ContainsTestSuite(tokens)
    decreases |tokens|
  {
    if |tokens| == 0 then seen
    else
      var found := Scan(tokens[1..], seen || IsTestSuiteStart(tokens[0]));
      assert forall i :: 1 <= i < |tokens| ==> tokens[i] == tokens[1..][i - 1];
      found
  }

  /** `ValidateJUnitXMLFile`; `openError` is `os.Open`'s failure, if any. */
  function ValidateJUnitXmlFile(openError: Option<string>, s: Stream): (v: Validation)
    ensures openError.Some? ==> v == Validation(Fail(OpenFailed(openError.value)), 0)
    ensures openError.None? ==> v.tokenCalls == |s.tokens| + 1
    ensures openError.None? && s.end.TokenizerError? ==> v.outcome == Fail(ParseXmlFailed(s.end.cause))
    ensures openError.None? && s.end.Eof? ==>
              (v.outcome.Pass? <==> ContainsTestSuite(s.tokens))
              && (v.outcome.Fail? ==> v.outcome.error == NotJUnit)
  {
    match openError
    case Some(c) => Validation(Fail(OpenFailed(c)), 0)
    case None =>
      var found := Scan(s.tokens, false);
      var outcome :=
        match s.end
        case TokenizerError(c) => Fail(ParseXmlFailed(c))
        case Eof => if found then Pass else Fail(NotJUnit);
      Validation(outcome, |s.tokens| + 1)
  }

  /** The scan of a stream is the scan of its tail started from the flag
      its head left: the loop carries nothing else between tokens. */
  lemma {:induction false} ScanSplits(head: seq<Token>, tail: seq<Token>, seen: bool)
    ensures Scan(head + tail, seen) == Scan(tail, Scan(head, seen))
  {
    var all := head + tail;
    if ContainsTestSuite(all) {
      var i :| 0 <= i < |all| && IsTestSuiteStart(all[i]);
      if i < |head| {
        assert all[i] == head[i];
      } else {
        assert all[i] == tail[i - |head|];
      }
    }
    if ContainsTestSuite(head) {
      var i :| 0 <= i < |head| && IsTestSuiteStart(head[i]);
      assert all[i] == head[i];
    }
    if ContainsTestSuite(tail) {
      var i :| 0 <= i < |tail| && IsTestSuiteStart(tail[i]);
      assert all[|head| + i] == tail[i];
    }
  }

  /** The flag is never reset: once a `testsuite` start has been seen, no
      later token (end elements included) clears it. */
  lemma SeenStaysSeen(head: seq<Token>, tail: seq<Token>)
    requires Scan(head, false)
    ensures Scan(head + tail, false)
  {
    ScanSplits(head, tail, false);
  }

  /** A tokenizer error is reported even after a `testsuite` start. */
  lemma ErrorAfterSuiteIsError(before: seq<Token>, cause: string)
    requires ContainsTestSuite(before)
    ensures ValidateJUnitXmlFile(None, Stream(before, TokenizerError(cause))).outcome
            == Fail(ParseXmlFailed(cause))
  {
  }

  function Rename(t: Token, space: string): (u: Token) {
    match t
    case StartElement(n) => StartElement(Name(space, n.local))
    case EndElement(n) => EndElement(Name(space, n.local))
    case _ => t
  }

  function RenameAll(tokens: seq<Token>, space: string): (us: seq<Token>)
    ensures |us| == |tokens|
    ensures forall i :: 0 <= i < |tokens| ==> us[i] == Rename(tokens[i], space)
  {
    seq(|tokens|, i requires 0 <= i < |tokens| => Rename(tokens[i], space))
  }

  /** Only the local name is compared: moving every element into another
      namespace leaves the verdict unchanged. */
  lemma NamespaceIgnored(openError: Option<string>, s: Stream, space: string)
    ensures ValidateJUnitXmlFile(openError, Stream(RenameAll(s.tokens, space), s.end))
            == ValidateJUnitXmlFile(openError, s)
  {
  }

  /** Nested `testsuite` elements inside `testsuites` are valid. */
  lemma NestedSuitesValid()
    ensures var tokens := [
              ProcInst("xml"),
              StartElement(Name("", "testsuites")),
              StartElement(Name("", "testsuite")),
              StartElement(Name("", "testsuite")),
              StartElement(Name("", "testcase")), EndElement(Name("", "testcase")),
              EndElement(Name("", "testsuite")),
              EndElement(Name("", "testsuite")),
              EndElement(Name("", "testsuites"))];
            ValidateJUnitXmlFile(None, Stream(tokens, Eof)).outcome == Pass
  {
  }

  /** A document whose root is not `testsuite` and that holds none is
      rejected as not JUnit. */
  lemma RootWithoutSuiteRejected()
    ensures var tokens := [
              ProcInst("xml"),
              StartElement(Name("", "root")),
              StartElement(Name("", "testcase")), EndElement(Name("", "testcase")),
              EndElement(Name("", "root"))];
            ValidateJUnitXmlFile(None, Stream(tokens, Eof)).outcome == Fail(NotJUnit)
  {
  }
}
